=== FILE: README.md ===
# Hierarchical state-machine runtime — a Dafny model

This project models the runtime core of a hierarchical state machine (HSM)
library. States can be composite, which means they contain child states. The
runtime keeps the current state and a deep-history store. Deep history maps
each composite state to the exact leaf that was active when it was last
exited. The runtime starts, stops and resets the machine, and it dispatches
events. Dispatch picks the valid transition of greatest priority. Ties go to
the transition registered first. The chosen transition then runs in the order
exit, actions, enter. If a step raises, the error is reported to the hooks.
It is then either absorbed by an attached recovery strategy or re-raised.
A composite machine gives the submachine of its current composite state the
first refusal on every event. A depth-first cycle detector walks the
containment relation.

The model is functional. Every operation is a pure function. It returns the
new machine, what the call returned or raised, and the effects the outside
world sees, in order. Those effects are state callbacks and hook
notifications, transition actions, error reports and recovery calls.

Modules and files:

- `wrappers.dfy` (`Wrappers`): `Option` and `Outcome`.
- `graph.dfy` (`StateGraph`): state identities, state classes, transitions and the structural graph. The graph holds its containment edges and the transitions in registration order. It also answers the ancestor and valid-transition queries. `Hierarchy` is the separate containment the state objects record themselves: each state's `parent` attribute and each parent's `_children`.
- `history.dfy` (`History`): the runtime context, which holds the history store, the context's own current state and the states it knows.
- `priority.dfy` (`Priority`): how one transition is chosen among the valid ones.
- `machine.dfy` (`StateMachine`): the machine record, plus start-state resolution, `start`, `stop`, `reset`, transition execution and `process_event`.
- `composite.dfy` (`Composite`): `add_submachine`, the composite `start` and the delegating `process_event`.
- `cycles.dfy` (`Cycles`): `detect_cycles`. It proves that the detector reports nothing exactly when no containment walk from the initial state repeats a state.
- `lifecycle.dfy` (`Lifecycle`): properties that span several calls, and a few concrete machines.

External collaborators are parameters, bundled in `StateMachine.Env`:

- the class of each state: simple, or composite with its designated initial child;
- the guards, as a predicate over a transition and an event;
- the graph's structural validation, as a function from the graph to a list of problems;
- the external validator, as a predicate over the machine.

Callbacks, hooks and actions that may raise are given per call. The
`fault: Option<Phase>` argument names the step that raises, if any.

Three behaviours of the code are easy to miss, and the model keeps them:

- **History resumption.** `start` runs after `stop` has cleared the current state, so it consults only the history of the immediate composite parent of the machine's *initial* state. `stop` writes the history of the immediate parent of the leaf it stops in. A transition records the leaf it leaves for every composite ancestor, so that record can also hold the leaf. `Lifecycle.StopThenStartResumes` proves that a leaf which shares its immediate composite with the initial state is resumed. `Lifecycle.NoResumeOutsideInitialRegion` shows a machine that comes back in its initial state instead.
- **Composite start.** After the base `start`, `CompositeStateMachine.start` always moves the machine to its initial state. It does so even when the base `start` was a no-op because the machine was already running. Entry was notified for the resolved state, not for the initial state.
- **Transition exit.** The exited state is the current state, not `transition.source`. The two differ when the current state is composite: such a state is matched through its designated initial child.

## Model

| member | source | states |
|---|---|---|
| History.NewContext | hsm/core/state_machine.py:35-41 | a fresh context starts at the initial state, knows only that state and has no history record |
| History.Remember | hsm/core/state_machine.py:56-60 | registering a state adds it to the known states as a set: no state is listed twice, and nothing else in the context changes |
| History.Lookup | hsm/core/state_machine.py:92-95 | the lookup yields a leaf exactly when the composite has a record, and then it yields that record's leaf |
| History.RecordExit | hsm/core/state_machine.py:85-90 | recording overwrites the single record of its composite, so a lookup then yields the new leaf; every other composite's record is untouched, and records stay filed under the composite they name |
| History.ResetHistory | hsm/core/state_machine.py:97-101 | after a reset no composite has a record and the context's current state is its initial state |
| History.LatestRecordWins | hsm/core/state_machine.py:85-95 | after several recordings for one composite, the lookup returns the most recent leaf and other composites are unaffected |
| StateGraph.AddState | hsm/core/state_machine.py:134-136 | a state is registered in the graph, and with a parent it gets a graph edge to that parent, the only new edge; other edges and the transitions are kept |
| StateGraph.Adopt | hsm/core/state_machine.py:137-141 | the state's `parent` attribute becomes the given parent, which lists it among its children, as a set; no other state's parent and no other state's children change |
| StateGraph.AddTransition | hsm/core/state_machine.py:154-157 | a transition is appended to the registration order and the structure is unchanged |
| StateGraph.Ancestors | hsm/core/state_machine.py:261-263 | the ancestors form the chain of successive parents of the state, and the chain is empty exactly when the state has no parent |
| StateGraph.Candidates | hsm/core/state_machine.py:72-77 | a transition is a candidate exactly when it is registered, leaves the matched state and its guards accept the event |
| Priority.FirstMax | hsm/core/state_machine.py:249-250 | the chosen position holds a maximal priority, and every earlier position holds a strictly smaller one |
| Priority.FirstMaxUnique | hsm/core/state_machine.py:249-250 | at most one position is the first maximal one, so the tie-break is deterministic |
| Priority.Select | hsm/core/state_machine.py:245-250 | nothing is selected exactly when no registered transition is valid; otherwise the selected one is valid and has a maximal priority among the valid ones |
| Priority.FirstMaxMatchUnique | hsm/core/state_machine.py:245-250 | at most one registered transition is the earliest valid one of greatest priority |
| Priority.FirstRegisteredMaxIndex | hsm/core/state_machine.py:245-250 | the selected transition sits at the position of the earliest registered valid transition of greatest priority |
| Priority.SelectIsFirstRegisteredMax | hsm/core/state_machine.py:245-250 | filtering and then taking the maximum picks the earliest registered valid transition among those of greatest priority |
| StateMachine.NewMachine | hsm/core/state_machine.py:121-132 | a new machine is stopped, positioned at its initial state, has that state registered, and has no history, transitions or submachines |
| StateMachine.AttachRecovery | hsm/core/state_machine.py:280-282 | attaching a recovery strategy changes nothing else about the machine: graph, attributes, position, history, initial state, kind and submachines are kept |
| StateMachine.AddMachineState | hsm/core/state_machine.py:134-143 | registering a state adds the graph edge, records the containment in the state's and the parent's attributes when a parent is given (and leaves them alone otherwise), makes the state (and nothing else) known to the context, keeps the history, the recovery flag, the kind and the submachines, and keeps the machine's invariants |
| StateMachine.AddMachineTransition | hsm/core/state_machine.py:154-157 | registering a transition appends it and makes both endpoints (and nothing else) known to the context; states, graph edges, attributes, history, the recovery flag, the kind and the submachines are unchanged |
| StateMachine.ParentComposite | hsm/core/state_machine.py:163-167 | a parent is reported exactly when the state's `parent` attribute is set and names a composite state |
| StateMachine.ResolveStartState | hsm/core/state_machine.py:175-199 | inside a composite, the composite's history leaf wins, then its designated initial child, then the machine's initial state; outside a composite, the initial state; the result differs from the history-free entry only by being the recorded leaf |
| StateMachine.Start | hsm/core/state_machine.py:201-216 | start is a no-op on a started machine; otherwise the resolved state becomes current even when start then fails; structural problems raise a validation error listing all of them; the machine ends up started, with one entry notification, exactly when validation, the validator and the entry callback all pass |
| StateMachine.Stop | hsm/core/state_machine.py:218-233 | stop is a no-op on a stopped machine; otherwise only the immediate composite parent's record changes, to the current leaf, and the machine is left stopped with no current state after one exit notification; a raising exit callback leaves it running, with history written and the context's current state untouched |
| StateMachine.Reset | hsm/core/state_machine.py:337-341 | after a successful reset the machine is stopped, has no history and is positioned at its initial state; a raising stop aborts the reset; the context keeps its known states and its initial state |
| StateMachine.ActiveState | hsm/core/state_machine.py:240-243 | transitions are matched from the current state, or from the designated initial child when the current state is composite |
| StateMachine.Fired | hsm/core/state_machine.py:235-250 | nothing fires exactly when the machine is stopped, has no current state or has no valid transition; what fires is valid and of maximal priority |
| StateMachine.RecordAncestors | hsm/core/state_machine.py:260-264 | every composite among the ancestors records the leaf, and every other record is untouched |
| StateMachine.Abort | hsm/core/state_machine.py:276-285 | an error is reported to the hooks, then absorbed by recovery when attached, otherwise re-raised; the machine is left as it was when the step raised |
| StateMachine.ExecuteTransition | hsm/core/state_machine.py:254-285 | every composite ancestor of the current leaf records that leaf; on success the order is exit, actions, enter and the target becomes current; a raising exit or action leaves the leaf current, and a raising enter leaves the target current; the call raises exactly when no recovery is attached; apart from the history records the context is unchanged |
| StateMachine.ProcessEvent | hsm/core/state_machine.py:235-252 | without a transition to fire the call returns false and changes nothing; otherwise it returns true, or raises exactly when a step raised and no recovery is attached; on success the fired transition's target is current; apart from the history records the context is unchanged |
| Composite.AddStatesUnder | hsm/core/state_machine.py:359-361 | every state of the submachine is registered in the graph with an edge to the composite; the registered states and the edged states grow by exactly the submachine's states; other graph edges are kept |
| Composite.AddSubmachine | hsm/core/state_machine.py:354-363 | a non-composite state is refused with an argument error and nothing changes; otherwise the submachine is attached to the composite, other submachines are kept, and the submachine's states are registered in the graph under the composite; only that one composite gains a submachine, and the states' own attributes, the recovery flag, the kind, the initial state, the position and the history are untouched |
| Composite.CompositeStart | hsm/core/state_machine.py:365-370 | a failing start is passed through unchanged; after a start that did not raise, the machine is started and positioned at its initial state, even if it was already running |
| Composite.Delegate | hsm/core/state_machine.py:374-377 | a submachine is consulted exactly when the current state is composite and has one attached |
| Composite.DispatchEvent | hsm/core/state_machine.py:372-381 | an event not handled leaves the machine unchanged with no effects, at any nesting depth; the invariants are kept |
| Composite.CompositeProcessEvent | hsm/core/state_machine.py:372-381 | when the submachine handles or raises, only that submachine changes and the machine's own transitions are not evaluated; when it declines or there is none, the result is exactly the flat machine's processing |
| Cycles.Visit | hsm/core/state_machine.py:316-332 | one visit keeps the bookkeeping consistent with the open path, adds only genuine cycle reports, and leaves the state finished after its children when nothing was reported |
| Cycles.VisitAll | hsm/core/state_machine.py:328-330 | visiting the children in order keeps the bookkeeping consistent, and with no report all children are finished |
| Cycles.DepthFirst | hsm/core/state_machine.py:310-335 | each state is expanded at most once; with no report, every state is finished after all the states it contains |
| Cycles.ReportMeansCycle | hsm/core/state_machine.py:316-320 | a report exhibits a containment walk from the initial state that comes back to a state on the open path |
| Cycles.NoReportsMeansAcyclic | hsm/core/state_machine.py:310-335 | a walk that emits no report proves that no containment walk from the root repeats a state |
| Cycles.DetectCycles | hsm/core/state_machine.py:310-335 | the list of reports is empty exactly when containment from the root has no cycle, and every report names a real cycle |
| Cycles.MachineCycles | hsm/core/state_machine.py:334-335 | a machine's cycle reports are empty exactly when the children its states record, walked from its initial state, are cycle-free |
| Lifecycle.StartIsIdempotent | hsm/core/state_machine.py:201-204 | a second start after a successful one changes nothing and notifies nobody |
| Lifecycle.StopThenStartResumes | hsm/core/state_machine.py:184-193 | stopping in a leaf of the initial state's composite and starting again resumes that leaf |
| Lifecycle.ResetForgetsHistory | hsm/core/state_machine.py:337-341 | after a reset, start resolves from the initial state to the history-free entry |
| Lifecycle.MatchingIgnoresHistory | hsm/core/state_machine.py:240-245 | the transition that fires does not depend on the history records |
| Lifecycle.FlatStartsInIdle | hsm/core/state_machine.py:201-216 | a flat machine whose initial state Idle has no composite parent starts in Idle |
| Lifecycle.FlatScenario | hsm/core/state_machine.py:235-252 | Idle --start--> Running --finish--> Done: each event is handled and moves the state, and an unknown event changes nothing |
| Lifecycle.NestedStartsInIdle | hsm/core/state_machine.py:201-216 | a machine whose initial state Idle lies outside the composite Active starts in Idle, with Running registered under Active |
| Lifecycle.NoResumeOutsideInitialRegion | hsm/core/state_machine.py:185-199 | history recorded for a composite that does not contain the initial state is not resumed by the next start, for any started machine in Idle with that containment and transition |
| Lifecycle.PriorityThenRegistrationOrder | hsm/core/state_machine.py:249-250 | of two valid transitions, the first registered wins unless the later one has a strictly higher priority |
| Lifecycle.SubmachineHandlesFirst | hsm/core/state_machine.py:372-381 | when the submachine handles an event, the parent stays at its composite state even though one of its own transitions also matches |
| Lifecycle.AttachLeavesHierarchy | hsm/core/state_machine.py:354-363 | attaching a submachine changes neither the cycle reports nor any state's composite parent, because only graph edges are written |
| Lifecycle.ThreeCycleReported | hsm/core/state_machine.py:316-320 | the containment cycle A, B, C, A is reported exactly once, naming the open path A, B, C and the re-entered state A |

## Left out

- The history store's lock: history writes are atomic here, and concurrency is not modelled.
- Timestamps of history records: they are wall-clock values, so they are dropped.
- The skipping of asynchronous hooks, and the presence checks on hooks and on the recovery strategy. Hooks are represented by the ordered effects they observe. The recovery strategy is a flag.
- A custom recovery strategy's own effect on the machine. Only the default strategy is modelled, and it does nothing.
- A phase that raises part-way through, for example after some hooks were notified. It is modelled as raising before its notice.
- A raising hook `on_error` and a raising recovery strategy.
- The internals of the state graph, which are not part of this model. Its validation is an opaque function in `Env`. Ancestors follow the parent links, and each link is followed at most once. Valid transitions are kept in registration order.
- Whether a parent has a `_children` attribute. A child is always recorded under its parent, and cycle detection reads the children of composite states only.
- The external validator's rules, and the `State` and `Transition` classes. They enter only through `Env`: the state classes and designated initial children, the guards, and the validator's verdict. A composite's designated initial child is treated as fixed.
- The context's own `start`, `stop` and `process_event`, its transition list, `set_current_state`, and the plain getters. The machine never calls them.
- The text of error and cycle messages. A cycle report keeps the open path as an ordered list, where the source prints an unordered set.
- Iteration order of Python sets (the known states and a composite's children). It is modelled as insertion order. Whether any cycle is reported does not depend on that order, because `Cycles.DetectCycles` characterises it without reference to order.
- StateGraph.Ancestors: the contract does not state that the chain ends at a state without a parent. It states only that each element is the parent of the one before.
- Composite.AddSubmachine: the submachine is held by value, while the source stores a reference. Starting, stopping or resetting the submachine through its owner after it is attached, or attaching one object under two composites, is therefore not seen by the parent.
- StateMachine.Fired: a guard is a total predicate, so a guard that raises is not modelled. In the source, guards run outside the `try` of `process_event`, so such an exception would propagate with no `on_error` report and no recovery.
- StateMachine.ParentComposite: the states' `parent` and `_children` attributes are modelled per machine and start empty. In the source they live on shared state objects, so a write by another machine's `add_state`, a submachine's included, would be seen here. The model does not see it.
- `src/lib.rs` holds only module declarations.

=== FILE: composite.dfy ===
/**
 * The composite machine: a machine that owns submachines, one per composite
 * state, and gives the submachine of its current composite state the first
 * refusal on every event.  A submachine may itself be composite, so event
 * dispatch picks the behaviour by the machine's kind (`DispatchEvent`).
 */
module Composite {
  import opened Wrappers
  import opened StateGraph
  import opened History
  import opened StateMachine

  /**
   * Registers every state the submachine knows under `parent` in the graph,
   * in the submachine's order.  Only graph edges are written: the states'
   * own `parent` attributes and the composite's children stay as they were.
   */
  function AddStatesUnder(g: Graph, states: seq<StateId>, parent: StateId): (r: Graph)
    ensures forall s :: s in states ==> s in r.states && s in r.parent && r.parent[s] == parent
    ensures forall s :: s in g.parent && s !in states ==> s in r.parent && r.parent[s] == g.parent[s]
    ensures forall s :: s in r.states <==> s in g.states || s in states
    ensures forall s :: s in r.parent <==> s in g.parent || s in states
    ensures r.transitions == g.transitions
    decreases |states|
  {
    if |states| == 0 then g
    else AddStatesUnder(AddState(g, states[0], Some(parent)), states[1..], parent)
  }

  /**
   * `add_submachine`: refuses a non-composite state with an argument error
   * and changes nothing; otherwise the submachine's states are registered
   * under the composite and the submachine is attached to it.
   */
  function AddSubmachine(m: Machine, kinds: Kinds, s: StateId, sub: Machine): (r: Step)
    requires m.nested
    ensures !IsComposite(kinds, s) ==> r == Step(m, Fail(NotComposite(s)), [])
    ensures IsComposite(kinds, s) ==>
      && r.outcome.Pass? && r.effects == []
      && s in r.machine.subs && r.machine.subs[s] == sub
      && (forall x :: x in m.subs && x != s ==> x in r.machine.subs && r.machine.subs[x] == m.subs[x])
      && (forall x :: x in sub.context.known ==>
            x in r.machine.graph.parent && r.machine.graph.parent[x] == s)
      && r.machine.graph.transitions == m.graph.transitions
      && r.machine.hierarchy == m.hierarchy
      && r.machine.subs.Keys == m.subs.Keys + {s}
      && r.machine.recovery == m.recovery && r.machine.nested == m.nested
      && r.machine.initial == m.initial
      && (forall x :: x in r.machine.graph.states <==> x in m.graph.states || x in sub.context.known)
      && (forall x :: x in m.graph.parent && x !in sub.context.known ==>
            x in r.machine.graph.parent && r.machine.graph.parent[x] == m.graph.parent[x])
      && (forall x :: x in r.machine.graph.parent <==> x in m.graph.parent || x in sub.context.known)
      && r.machine.current == m.current && r.machine.started == m.started
      && r.machine.context == m.context
    ensures Valid(m) && Valid(sub) ==> Valid(r.machine)
  {
    if !IsComposite(kinds, s) then Step(m, Fail(NotComposite(s)), [])
    else
      var graph := AddStatesUnder(m.graph, sub.context.known, s);
      var attached := m.(graph := graph, subs := m.subs[s := sub]);
      Step(attached, Pass, [])
  }

  /**
   * `start` of a composite machine: the ordinary start, after which the
   * machine is positioned at its initial state rather than at the resolved
   * leaf.  Because the reset to the initial state runs even when the
   * ordinary start was a no-op, starting a running composite machine moves
   * it back to its initial state.  Submachines are not started.
   */
  function CompositeStart(m: Machine, env: Env, fault: Option<Phase>): (r: Step)
    ensures Start(m, env, fault).outcome.Fail? ==> r == Start(m, env, fault)
    ensures Start(m, env, fault).outcome.Pass? ==>
      && r.outcome.Pass? && r.machine.started
      && r.machine.current == Some(m.initial)
      && r.effects == Start(m, env, fault).effects
    ensures SameSetup(r.machine, m) && r.machine.context == m.context
    ensures Valid(m) ==> Valid(r.machine)
  {
    var st := Start(m, env, fault);
    if st.outcome.Fail? then st
    else Step(st.machine.(current := Some(st.machine.initial)), Pass, st.effects)
  }

  /** The submachine that gets first refusal: the one attached to the current composite state. */
  function Delegate(m: Machine, kinds: Kinds): (r: Option<StateId>)
    ensures r.Some? <==>
      m.current.Some? && IsComposite(kinds, m.current.value) && m.current.value in m.subs
    ensures r.Some? ==> r == m.current
  {
    if m.current.Some? && IsComposite(kinds, m.current.value) && m.current.value in m.subs
    then m.current else None
  }

  /** `process_event`, chosen by the kind of machine it is sent to. */
  function DispatchEvent(m: Machine, env: Env, ev: Event, fault: Option<Phase>): (r: EventStep)
    ensures r.dispatch == NotHandled ==> r.machine == m && r.effects == []
    ensures r.machine.graph == m.graph && r.machine.initial == m.initial && r.machine.started == m.started
    ensures Valid(m) ==> Valid(r.machine)
    decreases m, 1
  {
    if m.nested then CompositeProcessEvent(m, env, ev, fault) else ProcessEvent(m, env, ev, fault)
  }

  /**
   * `process_event` of a composite machine.  When the current state is a
   * composite with a submachine, the submachine sees the event first; if it
   * handles the event (or raises), the machine's own transitions are not
   * evaluated and only the submachine changes.  Otherwise the event is
   * processed exactly as by a flat machine.
   */
  function CompositeProcessEvent(m: Machine, env: Env, ev: Event, fault: Option<Phase>): (r: EventStep)
    ensures Delegate(m, env.kinds).None? ==> r == ProcessEvent(m, env, ev, fault)
    ensures Delegate(m, env.kinds).Some? ==>
      var s := Delegate(m, env.kinds).value;
      var sub := DispatchEvent(m.subs[s], env, ev, fault);
      && (sub.dispatch != NotHandled ==>
            r == EventStep(m.(subs := m.subs[s := sub.machine]), sub.dispatch, sub.effects))
      && (sub.dispatch == NotHandled ==> r == ProcessEvent(m, env, ev, fault))
    ensures r.dispatch == NotHandled ==> r.machine == m && r.effects == []
    ensures r.machine.graph == m.graph && r.machine.initial == m.initial && r.machine.started == m.started
    ensures Valid(m) ==> Valid(r.machine)
    decreases m, 0
  {
    match Delegate(m, env.kinds)
    case None => ProcessEvent(m, env, ev, fault)
    case Some(s) =>
      var sub := DispatchEvent(m.subs[s], env, ev, fault);
      var m1 := m.(subs := m.subs[s := sub.machine]);
      if sub.dispatch != NotHandled then
        assert Valid(m) ==> Valid(m1) by {
          if Valid(m) { assert forall x :: x in m1.subs ==> Valid(m1.subs[x]); }
        }
        EventStep(m1, sub.dispatch, sub.effects)
      else
        assert m1 == m;
        ProcessEvent(m, env, ev, fault)
  }
}

=== FILE: cycles.dfy ===
/**
 * Cycle detection over the containment relation: a depth-first walk from the
 * machine's initial state that follows the children of composite states,
 * keeps the states on the open path, and emits one report whenever it
 * reaches a state that is already on the open path.  A state reached again
 * after it was finished is not expanded a second time.
 *
 * The main result: no report is emitted exactly when no walk along
 * containment edges from the initial state repeats a state.
 */
module Cycles {
  import opened StateGraph
  import opened StateMachine

  /** A report: the open path when the walk came back to `reentered`, a state on that path. */
  datatype CycleReport = CycleReport(openPath: seq<StateId>, reentered: StateId)

  /**
   * The walk's bookkeeping: the states ever expanded, the states whose
   * expansion is complete (in completion order, the moment each leaves the
   * open path), and the reports so far.
   */
  datatype Search = Search(visited: set<StateId>, finished: seq<StateId>, reports: seq<CycleReport>)

  /** The children the walk explores from `s`: those of a composite state only. */
  function Kids(kinds: Kinds, children: map<StateId, seq<StateId>>, s: StateId): seq<StateId> {
    if IsComposite(kinds, s) && s in children then children[s] else []
  }

  ghost predicate Edge(kinds: Kinds, children: map<StateId, seq<StateId>>, a: StateId, b: StateId) {
    b in Kids(kinds, children, a)
  }

  /** `w` follows containment edges from each state to the next. */
  ghost predicate IsWalk(kinds: Kinds, children: map<StateId, seq<StateId>>, w: seq<StateId>) {
    forall i :: 0 <= i < |w| - 1 ==> Edge(kinds, children, w[i], w[i + 1])
  }

  /** No containment walk from `root` visits a state twice. */
  ghost predicate AcyclicFrom(kinds: Kinds, children: map<StateId, seq<StateId>>, root: StateId) {
    forall w: seq<StateId> :: IsWalk(kinds, children, w) && |w| > 0 && w[0] == root ==> NoDups(w)
  }

  /** Every state the walk can reach: the root and every listed child. */
  function Universe(children: map<StateId, seq<StateId>>, root: StateId): (u: set<StateId>)
    ensures root in u
    ensures forall p, k :: p in children && k in children[p] ==> k in u
  {
    {root} + set p, i | p in children && 0 <= i < |children[p]| :: children[p][i]
  }

  /** A report names a genuine cycle: a walk from the root that comes back to a state on it. */
  ghost predicate GenuineReport(kinds: Kinds, children: map<StateId, seq<StateId>>, root: StateId,
                                r: CycleReport) {
    && r.reentered in r.openPath
    && r.openPath[0] == root
    && IsWalk(kinds, children, r.openPath + [r.reentered])
  }

  ghost predicate AllGenuine(kinds: Kinds, children: map<StateId, seq<StateId>>, root: StateId,
                             reports: seq<CycleReport>) {
    forall k :: 0 <= k < |reports| ==> GenuineReport(kinds, children, root, reports[k])
  }

  /** Every finished state's children finished before it. */
  ghost predicate FinishOrder(kinds: Kinds, children: map<StateId, seq<StateId>>, f: seq<StateId>) {
    forall i, c :: 0 <= i < |f| && Edge(kinds, children, f[i], c) ==> c in f[..i]
  }

  /** The bookkeeping agrees with the open path. */
  ghost predicate Consistent(kinds: Kinds, children: map<StateId, seq<StateId>>, path: seq<StateId>,
                             st: Search) {
    && NoDups(st.finished)
    && (forall x :: x in path ==> x !in st.finished)
    && (forall x :: x in st.visited <==> x in path || x in st.finished)
    && (st.reports == [] ==> FinishOrder(kinds, children, st.finished))
  }

  lemma {:induction false} SubsetCard(xs: set<StateId>, ys: set<StateId>)
    requires xs <= ys
    ensures |xs| <= |ys|
    decreases |xs|
  {
    if xs != {} {
      var x :| x in xs;
      SubsetCard(xs - {x}, ys - {x});
    }
  }

  lemma ShrinkOnGrowth(u: set<StateId>, a: set<StateId>, b: set<StateId>)
    requires a <= b
    ensures |u - b| <= |u - a|
  {
    SubsetCard(u - b, u - a);
  }

  lemma ShrinkOnAdd(u: set<StateId>, a: set<StateId>, s: StateId)
    requires s in u && s !in a
    ensures |u - (a + {s})| < |u - a|
  {
    assert u - a == (u - (a + {s})) + {s};
  }

  lemma KidsInUniverse(kinds: Kinds, children: map<StateId, seq<StateId>>, root: StateId, s: StateId)
    ensures forall k :: k in Kids(kinds, children, s) ==> k in Universe(children, root)
  {
  }

  /** Entering a fresh state `s` keeps the bookkeeping consistent with the longer open path. */
  lemma EnterStep(kinds: Kinds, children: map<StateId, seq<StateId>>, path: seq<StateId>, s: StateId,
                  st: Search)
    requires Consistent(kinds, children, path, st) && s !in st.visited
    ensures Consistent(kinds, children, path + [s], st.(visited := st.visited + {s}))
  {
  }

  /**
   * Leaving `s` once all its children are done: `s` joins the finished
   * states after them, so the finishing order is kept.
   */
  lemma LeaveStep(kinds: Kinds, children: map<StateId, seq<StateId>>, path: seq<StateId>, s: StateId,
                  inner: Search)
    requires s !in path
    requires Consistent(kinds, children, path + [s], inner)
    requires inner.reports == [] ==> forall k :: k in Kids(kinds, children, s) ==> k in inner.finished
    ensures Consistent(kinds, children, path, inner.(finished := inner.finished + [s]))
  {
    var f := inner.finished + [s];
    assert s !in inner.finished;
    if inner.reports == [] {
      forall i, c | 0 <= i < |f| && Edge(kinds, children, f[i], c)
        ensures c in f[..i]
      {
        if i < |inner.finished| {
          assert f[..i] == inner.finished[..i];
        } else {
          assert f[..i] == inner.finished;
        }
      }
    }
  }

  /** `visit(s)` with `path` the open path leading to `s`. */
  function Visit(kinds: Kinds, children: map<StateId, seq<StateId>>, root: StateId,
                 s: StateId, path: seq<StateId>, st: Search): (r: Search)
    requires s in Universe(children, root)
    requires IsWalk(kinds, children, path + [s]) && (path + [s])[0] == root
    requires Consistent(kinds, children, path, st)
    requires AllGenuine(kinds, children, root, st.reports)
    ensures Consistent(kinds, children, path, r)
    ensures AllGenuine(kinds, children, root, r.reports)
    ensures st.visited <= r.visited && st.finished <= r.finished && st.reports <= r.reports
    ensures r.reports == [] ==> s in r.finished
    decreases |Universe(children, root) - st.visited|, 0
  {
    if s in path then
      st.(reports := st.reports + [CycleReport(path, s)])
    else if s in st.visited then
      st
    else
      EnterStep(kinds, children, path, s, st);
      ShrinkOnAdd(Universe(children, root), st.visited, s);
      KidsInUniverse(kinds, children, root, s);
      var inner := VisitAll(kinds, children, root, Kids(kinds, children, s), path + [s],
                            st.(visited := st.visited + {s}));
      LeaveStep(kinds, children, path, s, inner);
      inner.(finished := inner.finished + [s])
  }

  lemma ExtendWalk(kinds: Kinds, children: map<StateId, seq<StateId>>, path: seq<StateId>, k: StateId)
    requires |path| > 0 && IsWalk(kinds, children, path) && Edge(kinds, children, path[|path| - 1], k)
    ensures IsWalk(kinds, children, path + [k]) && (path + [k])[0] == path[0]
  {
  }

  /** The loop over the children of the state at the end of `path`. */
  function VisitAll(kinds: Kinds, children: map<StateId, seq<StateId>>, root: StateId,
                    kids: seq<StateId>, path: seq<StateId>, st: Search): (r: Search)
    requires forall k :: k in kids ==> k in Universe(children, root)
    requires |path| > 0 && path[0] == root && IsWalk(kinds, children, path)
    requires forall k :: k in kids ==> Edge(kinds, children, path[|path| - 1], k)
    requires Consistent(kinds, children, path, st)
    requires AllGenuine(kinds, children, root, st.reports)
    ensures Consistent(kinds, children, path, r)
    ensures AllGenuine(kinds, children, root, r.reports)
    ensures st.visited <= r.visited && st.finished <= r.finished && st.reports <= r.reports
    ensures r.reports == [] ==> forall k :: k in kids ==> k in r.finished
    decreases |Universe(children, root) - st.visited|, |kids|
  {
    if |kids| == 0 then st
    else
      assert kids[0] in kids;
      ExtendWalk(kinds, children, path, kids[0]);
      var st1 := Visit(kinds, children, root, kids[0], path, st);
      ShrinkOnGrowth(Universe(children, root), st.visited, st1.visited);
      assert forall k :: k in kids[1..] ==> k in kids;
      var r := VisitAll(kinds, children, root, kids[1..], path, st1);
      assert forall k :: k in kids ==> k == kids[0] || k in kids[1..];
      r
  }

  /** The whole walk from `root`. */
  function DepthFirst(kinds: Kinds, children: map<StateId, seq<StateId>>, root: StateId): (r: Search)
    ensures NoDups(r.finished)
    ensures forall x :: x in r.visited <==> x in r.finished
    ensures AllGenuine(kinds, children, root, r.reports)
    ensures r.reports == [] ==> root in r.finished && FinishOrder(kinds, children, r.finished)
  {
    Visit(kinds, children, root, root, [], Search({}, [], []))
  }

  /** The first position of `x` in `f`. */
  function Pos(f: seq<StateId>, x: StateId): (i: nat)
    requires x in f
    ensures i < |f| && f[i] == x
    ensures forall j :: 0 <= j < i ==> f[j] != x
  {
    if f[0] == x then 0 else 1 + Pos(f[1..], x)
  }

  /**
   * Along a walk that starts among finished states, every state is finished,
   * and each step goes to a strictly earlier finished state.
   */
  lemma {:induction false} WalkDescends(kinds: Kinds, children: map<StateId, seq<StateId>>,
                                        f: seq<StateId>, w: seq<StateId>)
    requires NoDups(f) && FinishOrder(kinds, children, f)
    requires IsWalk(kinds, children, w) && |w| > 0 && w[0] in f
    ensures forall k :: 0 <= k < |w| ==> w[k] in f
    ensures forall k, j :: 0 <= k < j < |w| ==> Pos(f, w[j]) + (j - k) <= Pos(f, w[k])
    decreases |w|
  {
    if |w| > 1 {
      var n := |w| - 1;
      var front := w[..n];
      assert IsWalk(kinds, children, front) by {
        forall i | 0 <= i < |front| - 1 ensures Edge(kinds, children, front[i], front[i + 1]) {
          assert front[i] == w[i] && front[i + 1] == w[i + 1];
        }
      }
      WalkDescends(kinds, children, f, front);
      assert w[n - 1] == front[n - 1];
      var p := Pos(f, w[n - 1]);
      assert Edge(kinds, children, f[p], w[n]);
      assert w[n] in f[..p];
      var q :| 0 <= q < p && f[q] == w[n];
      assert Pos(f, w[n]) == q;
      forall k, j | 0 <= k < j < |w| ensures Pos(f, w[j]) + (j - k) <= Pos(f, w[k]) {
        assert w[k] == front[k];
        if j < n {
          assert w[j] == front[j];
        } else if k < n - 1 {
          assert Pos(f, front[n - 1]) + (n - 1 - k) <= Pos(f, front[k]);
        }
      }
    }
  }

  /** Without reports, the finishing order proves every walk from the root free of repeats. */
  lemma NoReportsMeansAcyclic(kinds: Kinds, children: map<StateId, seq<StateId>>, root: StateId)
    requires DepthFirst(kinds, children, root).reports == []
    ensures AcyclicFrom(kinds, children, root)
  {
    var f := DepthFirst(kinds, children, root).finished;
    forall w: seq<StateId> | IsWalk(kinds, children, w) && |w| > 0 && w[0] == root
      ensures NoDups(w)
    {
      WalkDescends(kinds, children, f, w);
    }
  }

  /** A report exhibits a walk from the root that repeats a state. */
  lemma ReportMeansCycle(kinds: Kinds, children: map<StateId, seq<StateId>>, root: StateId,
                         r: CycleReport)
    requires GenuineReport(kinds, children, root, r)
    ensures !AcyclicFrom(kinds, children, root)
  {
    var w := r.openPath + [r.reentered];
    var j :| 0 <= j < |r.openPath| && r.openPath[j] == r.reentered;
    assert w[j] == w[|w| - 1];
    assert w[0] == root;
    assert !NoDups(w);
  }

  /**
   * `detect_cycles`: the reports of the walk from `root`.  The list is empty
   * exactly when containment from `root` has no cycle, and every report
   * names a real cycle.
   */
  function DetectCycles(kinds: Kinds, children: map<StateId, seq<StateId>>, root: StateId)
    : (r: seq<CycleReport>)
    ensures r == [] <==> AcyclicFrom(kinds, children, root)
    ensures forall k :: 0 <= k < |r| ==> GenuineReport(kinds, children, root, r[k])
  {
    var search := DepthFirst(kinds, children, root);
    if search.reports == [] then
      NoReportsMeansAcyclic(kinds, children, root);
      search.reports
    else
      ReportMeansCycle(kinds, children, root, search.reports[0]);
      search.reports
  }

  /** `detect_cycles` of a machine: from its initial state, over the children its states record. */
  function MachineCycles(m: Machine, kinds: Kinds): (r: seq<CycleReport>)
    ensures r == [] <==> AcyclicFrom(kinds, m.hierarchy.children, m.initial)
  {
    DetectCycles(kinds, m.hierarchy.children, m.initial)
  }
}

=== FILE: graph.dfy ===
/**
 * The structural state graph the runtime consults: registered states, the
 * graph's containment edges, and the transitions in registration order.  The
 * graph's own implementation is not part of this model; its queries are given
 * here by their observable meaning: a containment edge per
 * `add_state(state, parent)`, ancestors by following parents, and valid
 * transitions by filtering on source and guard.  Separately, the state
 * objects carry their own containment attributes (`Hierarchy`), which only
 * the machine's `add_state` writes.
 */
module StateGraph {
  import opened Wrappers

  /** Stable identity of a state object. */
  type StateId = nat

  /** Opaque event identity; the runtime only passes it to guards and actions. */
  type Event = nat

  /** The class of a state object: a plain state, or a composite with its designated initial child. */
  datatype StateKind = Simple | Composite(initialChild: Option<StateId>)

  /** The class of every state object (an external collaborator). */
  type Kinds = StateId -> StateKind

  predicate IsComposite(kinds: Kinds, s: StateId) {
    kinds(s).Composite?
  }

  /**
   * A transition.  `id` distinguishes transition objects that share endpoints
   * and priority; its guards and actions are external and keyed by it.
   */
  datatype Transition = Transition(id: nat, source: StateId, target: StateId, priority: int)

  /** The guards of a transition, evaluated against an event. */
  type Guard = (Transition, Event) -> bool

  datatype Graph = Graph(
    states: set<StateId>,
    parent: map<StateId, StateId>,
    transitions: seq<Transition>)

  /**
   * The containment the state objects record themselves: each state's
   * `parent` attribute and each parent's `_children`.  Start resolution and
   * stop read `parent`; cycle detection walks `_children`.
   */
  datatype Hierarchy = Hierarchy(
    parent: map<StateId, StateId>,
    children: map<StateId, seq<StateId>>)

  ghost predicate NoDups<T>(xs: seq<T>) {
    forall i, j :: 0 <= i < j < |xs| ==> xs[i] != xs[j]
  }

  /** Appends `x` unless it is already present: insertion into an ordered set. */
  function Insert(xs: seq<StateId>, x: StateId): (r: seq<StateId>)
    ensures forall y :: y in r <==> y in xs || y == x
    ensures NoDups(xs) ==> NoDups(r)
    ensures xs <= r
  {
    if x in xs then xs else xs + [x]
  }

  /** The children recorded under `p`, in insertion order. */
  function ChildrenOf(h: Hierarchy, p: StateId): seq<StateId> {
    if p in h.children then h.children[p] else []
  }

  function EmptyHierarchy(): (h: Hierarchy)
    ensures h.parent == map[] && forall p :: ChildrenOf(h, p) == []
  {
    Hierarchy(map[], map[])
  }

  /** `s` gets `p` as its `parent` attribute and joins `p`'s children. */
  function Adopt(h: Hierarchy, s: StateId, p: StateId): (r: Hierarchy)
    ensures r.parent.Keys == h.parent.Keys + {s} && r.parent[s] == p
    ensures forall x :: x in h.parent && x != s ==> r.parent[x] == h.parent[x]
    ensures forall q :: q != p ==> ChildrenOf(r, q) == ChildrenOf(h, q)
    ensures forall x :: x in ChildrenOf(r, p) <==> x in ChildrenOf(h, p) || x == s
    ensures ChildrenOf(h, p) <= ChildrenOf(r, p)
  {
    Hierarchy(h.parent[s := p], h.children[p := Insert(ChildrenOf(h, p), s)])
  }

  function EmptyGraph(): (g: Graph)
    ensures g.states == {} && g.parent == map[] && g.transitions == []
  {
    Graph({}, map[], [])
  }

  /** Registers `s`, recording a containment edge when a parent is given. */
  function AddState(g: Graph, s: StateId, parent: Option<StateId>): (r: Graph)
    ensures r.states == g.states + {s}
    ensures r.transitions == g.transitions
    ensures parent.None? ==> r.parent == g.parent
    ensures parent.Some? ==> r.parent.Keys == g.parent.Keys + {s} && r.parent[s] == parent.value
    ensures forall x :: x in g.parent && x != s ==> x in r.parent && r.parent[x] == g.parent[x]
  {
    match parent
    case None => g.(states := g.states + {s})
    case Some(p) => g.(states := g.states + {s}, parent := g.parent[s := p])
  }

  /** Indexes a transition; registration order is kept. */
  function AddTransition(g: Graph, t: Transition): (r: Graph)
    ensures r.transitions == g.transitions + [t]
    ensures r.states == g.states && r.parent == g.parent
  {
    g.(transitions := g.transitions + [t])
  }

  /** `chain` lists the successive parents of `s`: chain[0] is the parent of `s`, and so on. */
  ghost predicate IsParentChain(parent: map<StateId, StateId>, s: StateId, chain: seq<StateId>) {
    && (|chain| > 0 ==> s in parent && chain[0] == parent[s])
    && (forall i :: 0 <= i < |chain| - 1 ==> chain[i] in parent && chain[i + 1] == parent[chain[i]])
  }

  function AncestorsFrom(parent: map<StateId, StateId>, s: StateId, followed: set<StateId>)
    : (r: seq<StateId>)
    ensures IsParentChain(parent, s, r)
    ensures |r| == 0 <==> s !in parent || s in followed
    decreases parent.Keys - followed
  {
    if s in parent && s !in followed then
      [parent[s]] + AncestorsFrom(parent, parent[s], followed + {s})
    else
      []
  }

  /**
   * The containers of `s`, innermost first, up to a state without a parent.
   * Each parent link is followed at most once, so a containment cycle ends the chain.
   */
  function Ancestors(g: Graph, s: StateId): (r: seq<StateId>)
    ensures IsParentChain(g.parent, s, r)
    ensures |r| == 0 <==> s !in g.parent
  {
    AncestorsFrom(g.parent, s, {})
  }

  /** Whether `t` leaves the state being matched and its guards accept `ev`. */
  predicate Matches(guard: Guard, active: Option<StateId>, ev: Event, t: Transition) {
    active == Some(t.source) && guard(t, ev)
  }

  /**
   * The valid transitions for `ev` out of `active`, in registration order.
   * With no state to match (`active == None`) there are none.
   */
  function Candidates(ts: seq<Transition>, guard: Guard, active: Option<StateId>, ev: Event)
    : (r: seq<Transition>)
    ensures forall t :: t in r <==> t in ts && Matches(guard, active, ev, t)
    ensures |r| <= |ts|
  {
    if |ts| == 0 then []
    else
      var rest := Candidates(ts[..|ts| - 1], guard, active, ev);
      var last := ts[|ts| - 1];
      assert ts == ts[..|ts| - 1] + [last];
      if Matches(guard, active, ev, last) then rest + [last] else rest
  }
}

=== FILE: history.dfy ===
/**
 * The machine's runtime context: the history store that maps each composite
 * state to the leaf that was active when it was last exited, plus the
 * context's own view of the initial and current state and the set of states
 * it has seen.  Records are written atomically (the store's lock only guards
 * against concurrent observers) and carry no timestamp here.
 */
module History {
  import opened Wrappers
  import opened StateGraph

  /** One history record: the leaf that was active when `composite` was exited. */
  datatype HistoryRecord = HistoryRecord(leaf: StateId, composite: StateId)

  datatype Context = Context(
    initial: StateId,
    current: Option<StateId>,
    known: seq<StateId>,
    records: map<StateId, HistoryRecord>)

  /** Every record is filed under the composite it names. */
  ghost predicate WellKeyed(ctx: Context) {
    forall c :: c in ctx.records ==> ctx.records[c].composite == c
  }

  function NewContext(initial: StateId): (ctx: Context)
    ensures ctx.initial == initial && ctx.current == Some(initial)
    ensures ctx.known == [initial]
    ensures forall c :: Lookup(ctx, c) == None
    ensures WellKeyed(ctx)
  {
    Context(initial, Some(initial), [initial], map[])
  }

  /** Remembers `s` among the known states; the known states have no repeats. */
  function Remember(ctx: Context, s: StateId): (r: Context)
    ensures s in r.known
    ensures forall x :: x in r.known <==> x in ctx.known || x == s
    ensures NoDups(ctx.known) ==> NoDups(r.known)
    ensures r.initial == ctx.initial && r.current == ctx.current && r.records == ctx.records
  {
    ctx.(known := Insert(ctx.known, s))
  }

  /** The leaf last recorded for `composite`, or None when it was never exited. */
  function Lookup(ctx: Context, composite: StateId): (r: Option<StateId>)
    ensures r.Some? <==> composite in ctx.records
    ensures r.Some? ==> r.value == ctx.records[composite].leaf
  {
    if composite in ctx.records then Some(ctx.records[composite].leaf) else None
  }

  /** Overwrites the single record of `composite` with `leaf`; no other record changes. */
  function RecordExit(ctx: Context, composite: StateId, leaf: StateId): (r: Context)
    ensures Lookup(r, composite) == Some(leaf)
    ensures forall c :: c != composite ==> Lookup(r, c) == Lookup(ctx, c)
    ensures r.records.Keys == ctx.records.Keys + {composite}
    ensures WellKeyed(ctx) ==> WellKeyed(r)
    ensures r.initial == ctx.initial && r.current == ctx.current && r.known == ctx.known
  {
    ctx.(records := ctx.records[composite := HistoryRecord(leaf, composite)])
  }

  /** Forgets every record and puts the context back at its initial state. */
  function ResetHistory(ctx: Context): (r: Context)
    ensures forall c :: Lookup(r, c) == None
    ensures r.current == Some(ctx.initial)
    ensures WellKeyed(r)
    ensures r.initial == ctx.initial && r.known == ctx.known
  {
    ctx.(records := map[], current := Some(ctx.initial))
  }

  /** A lookup returns the most recent of several writes to the same composite. */
  lemma {:induction false} LatestRecordWins(ctx: Context, composite: StateId, leaves: seq<StateId>)
    requires |leaves| > 0
    ensures Lookup(RecordAll(ctx, composite, leaves), composite) == Some(leaves[|leaves| - 1])
    ensures forall c :: c != composite ==> Lookup(RecordAll(ctx, composite, leaves), c) == Lookup(ctx, c)
  {
    if |leaves| > 1 {
      LatestRecordWins(ctx, composite, leaves[..|leaves| - 1]);
    }
  }

  /** Records each of `leaves` in turn for the same composite. */
  function RecordAll(ctx: Context, composite: StateId, leaves: seq<StateId>): Context
  {
    if |leaves| == 0 then ctx
    else RecordExit(RecordAll(ctx, composite, leaves[..|leaves| - 1]), composite, leaves[|leaves| - 1])
  }
}

=== FILE: lifecycle.dfy ===
/**
 * Properties that relate several lifecycle and dispatch calls: history
 * round trips through stop and start, reset forgetting history, start being
 * idempotent, and a few concrete machines that pin the behaviour down.
 */
module Lifecycle {
  import opened Wrappers
  import opened StateGraph
  import opened History
  import opened StateMachine
  import opened Composite
  import opened Cycles
  import opened Priority

  /** A second start of a started machine does nothing and notifies nobody. */
  lemma StartIsIdempotent(m: Machine, env: Env, first: Option<Phase>, second: Option<Phase>)
    requires Start(m, env, first).outcome.Pass?
    ensures Start(Start(m, env, first).machine, env, second)
            == Step(Start(m, env, first).machine, Pass, [])
    ensures Start(m, env, first).machine.started
  {
  }

  /**
   * History round trip: when the leaf the machine stops in lies in the same
   * composite region as the initial state, the next start resumes that leaf.
   */
  lemma StopThenStartResumes(m: Machine, env: Env, stopFault: Option<Phase>, p: StateId)
    requires m.started && m.current.Some?
    requires ParentComposite(m, env.kinds, m.current.value) == Some(p)
    requires ParentComposite(m, env.kinds, m.initial) == Some(p)
    requires stopFault != Some(ExitPhase)
    ensures ResolveStartState(Stop(m, env, stopFault).machine, env.kinds) == m.current.value
  {
  }

  /**
   * After a reset, start ignores whatever was recorded before: it enters the
   * initial state's region at its designated initial child, or the initial
   * state itself.
   */
  lemma ResetForgetsHistory(m: Machine, env: Env, fault: Option<Phase>)
    requires Reset(m, env, fault).outcome.Pass?
    ensures ResolveStartState(Reset(m, env, fault).machine, env.kinds)
            == StaticEntry(Reset(m, env, fault).machine, env.kinds)
    ensures Anchor(Reset(m, env, fault).machine) == m.initial
  {
  }

  /** Matching never consults history: the fired transition is the same whatever was recorded. */
  lemma MatchingIgnoresHistory(m: Machine, env: Env, ev: Event, records: map<StateId, HistoryRecord>)
    ensures Fired(m.(context := m.context.(records := records)), env, ev) == Fired(m, env, ev)
  {
  }

  // ---------------------------------------------------------------------
  // Concrete machines.  States: Idle 0, Active 1 (composite whose designated
  // initial child is Waiting 3), Running 2 (inside Active), Done 4.
  // Event 10 is "start", 11 is "finish", 12 is unknown.

  function Kinds1(s: StateId): StateKind {
    if s == 1 then Composite(Some(3)) else Simple
  }

  function Env1(): Env {
    Env(Kinds1, (t: Transition, e: Event) => t.id == e, (g: Graph) => [], (m: Machine) => true)
  }

  function Flat(): Machine {
    var m := NewMachine(0, false);
    var m := AddMachineState(m, 2, None);
    var m := AddMachineState(m, 4, None);
    var m := AddMachineTransition(m, Transition(10, 0, 2, 1));
    AddMachineTransition(m, Transition(11, 2, 4, 1))
  }

  /** When exactly one registered transition is valid, it is the one that fires. */
  lemma FiresOnly(m: Machine, env: Env, ev: Event, t: Transition)
    requires m.started && m.current.Some?
    requires t in m.graph.transitions && Matches(env.guard, ActiveState(m, env.kinds), ev, t)
    requires forall u :: u in m.graph.transitions && Matches(env.guard, ActiveState(m, env.kinds), ev, u)
                         ==> u == t
    ensures Fired(m, env, ev) == Some(t)
  {
  }

  /** Start enters Idle. */
  lemma FlatStartsInIdle()
    ensures var m := Start(Flat(), Env1(), None).machine;
      m.started && m.current == Some(0)
      && m.graph.transitions == [Transition(10, 0, 2, 1), Transition(11, 2, 4, 1)]
  {
  }

  /** From Idle, "start" moves to Running; an unknown event changes nothing; "finish" moves to Done. */
  lemma FlatScenario(m: Machine)
    requires m.started && m.current == Some(0)
    requires m.graph.transitions == [Transition(10, 0, 2, 1), Transition(11, 2, 4, 1)]
    ensures var e1 := ProcessEvent(m, Env1(), 10, None);
      var e2 := ProcessEvent(e1.machine, Env1(), 12, None);
      var e3 := ProcessEvent(e2.machine, Env1(), 11, None);
      && e1.dispatch == Handled && e1.machine.current == Some(2)
      && e2.dispatch == NotHandled && e2.machine == e1.machine
      && e3.dispatch == Handled && e3.machine.current == Some(4)
  {
    FiresOnly(m, Env1(), 10, Transition(10, 0, 2, 1));
    var e1 := ProcessEvent(m, Env1(), 10, None);
    assert Fired(e1.machine, Env1(), 12) == None;
    FiresOnly(e1.machine, Env1(), 11, Transition(11, 2, 4, 1));
  }

  function Nested(): Machine {
    var m := NewMachine(0, false);
    var m := AddMachineState(m, 1, None);
    var m := AddMachineState(m, 2, Some(1));
    var m := AddMachineState(m, 3, Some(1));
    AddMachineTransition(m, Transition(10, 0, 2, 1))
  }

  /** Start of the nested machine enters Idle, which has no parent; Running lies inside Active. */
  lemma NestedStartsInIdle()
    ensures var m := Start(Nested(), Env1(), None).machine;
      && m.started && m.current == Some(0)
      && m.graph.transitions == [Transition(10, 0, 2, 1)]
      && 0 !in m.hierarchy.parent && 2 in m.hierarchy.parent && m.hierarchy.parent[2] == 1
  {
  }

  /**
   * The initial state Idle lies outside Active, so the history that stop
   * writes for Active (Running) is not consulted by the next start: the
   * machine comes back in Idle.
   */
  lemma NoResumeOutsideInitialRegion(m: Machine)
    requires m.started && m.current == Some(0) && m.initial == 0
    requires m.graph.transitions == [Transition(10, 0, 2, 1)]
    requires 0 !in m.hierarchy.parent && 2 in m.hierarchy.parent && m.hierarchy.parent[2] == 1
    ensures var e1 := ProcessEvent(m, Env1(), 10, None);
      var stopped := Stop(e1.machine, Env1(), None).machine;
      && e1.machine.current == Some(2)
      && Lookup(stopped.context, 1) == Some(2)
      && Start(stopped, Env1(), None).machine.current == Some(0)
  {
    FiresOnly(m, Env1(), 10, Transition(10, 0, 2, 1));
  }

  /**
   * Two valid transitions out of Idle on "start", the one to Running
   * registered first: at equal priority it fires; when the later one has a
   * higher priority, the later one fires.
   */
  lemma PriorityThenRegistrationOrder(ts: seq<Transition>, p: int)
    requires ts == [Transition(10, 0, 2, 1), Transition(11, 2, 4, 1), Transition(10, 0, 4, p)]
    ensures p <= 1 ==> Select(ts, Env1().guard, Some(0), 10) == Some(Transition(10, 0, 2, 1))
    ensures p > 1 ==> Select(ts, Env1().guard, Some(0), 10) == Some(Transition(10, 0, 4, p))
  {
    var i := FirstRegisteredMaxIndex(ts, Env1().guard, Some(0), 10);
    if p <= 1 {
      assert IsFirstMaxMatch(ts, Env1().guard, Some(0), 10, 0);
      FirstMaxMatchUnique(ts, Env1().guard, Some(0), 10, i, 0);
    } else {
      assert IsFirstMaxMatch(ts, Env1().guard, Some(0), 10, 2);
      FirstMaxMatchUnique(ts, Env1().guard, Some(0), 10, i, 2);
    }
  }

  /** A started submachine for Active: it sits in Waiting and moves to Running on "start". */
  function Inner(): Machine {
    var sub := AddMachineState(NewMachine(3, false), 2, None);
    var sub := AddMachineTransition(sub, Transition(10, 3, 2, 1));
    Start(sub, Env1(), None).machine
  }

  /**
   * A composite machine positioned at Active, whose own transition out of
   * Active's initial child also accepts "start" (with a higher priority):
   * the submachine handles the event, so only the submachine moves.
   */
  lemma SubmachineHandlesFirst()
    ensures var outer := AddMachineTransition(NewMachine(1, true), Transition(10, 3, 4, 5));
      var attached := AddSubmachine(outer, Kinds1, 1, Inner()).machine;
      var running := CompositeStart(attached, Env1(), None).machine;
      var e := DispatchEvent(running, Env1(), 10, None);
      && running.current == Some(1)
      && e.dispatch == Handled
      && e.machine.current == Some(1)
      && e.machine.subs[1].current == Some(2)
  {
    var sub := Inner();
    assert sub.started && sub.current == Some(3);
    assert Fired(sub, Env1(), 10) == Some(Transition(10, 3, 2, 1)) by {
      assert sub.graph.transitions == [Transition(10, 3, 2, 1)];
    }
  }

  /**
   * Attaching a submachine writes graph edges only: the states' own parent
   * attributes and the composite's children are untouched, so neither cycle
   * detection nor start resolution sees the submachine's states.
   */
  lemma AttachLeavesHierarchy(m: Machine, kinds: Kinds, s: StateId, sub: Machine, x: StateId)
    requires m.nested && IsComposite(kinds, s)
    ensures var attached := AddSubmachine(m, kinds, s, sub).machine;
      && MachineCycles(attached, kinds) == MachineCycles(m, kinds)
      && ParentComposite(attached, kinds, x) == ParentComposite(m, kinds, x)
      && attached.initial == m.initial
  {
  }

  // Containment A -> B -> C -> A: states 1, 2, 3, all composite.

  function AllComposite(s: StateId): StateKind {
    Composite(None)
  }

  function Ring(): map<StateId, seq<StateId>> {
    map[1 := [2], 2 := [3], 3 := [1]]
  }

  const RingReport := CycleReport([1, 2, 3], 1)

  lemma RingUniverse()
    ensures Universe(Ring(), 1) == {1, 2, 3}
  {
    var u := Universe(Ring(), 1);
    assert 1 in Ring() && 2 in Ring()[1];
    assert 2 in Ring() && 3 in Ring()[2];
    forall x | x in u ensures x in {1, 2, 3} {
      if x != 1 {
        var p, i :| p in Ring() && 0 <= i < |Ring()[p]| && Ring()[p][i] == x;
      }
    }
  }

  /** The facts every step of the walk over the ring relies on. */
  ghost predicate RingFacts() {
    && Universe(Ring(), 1) == {1, 2, 3}
    && Kids(AllComposite, Ring(), 1) == [2]
    && Kids(AllComposite, Ring(), 2) == [3]
    && Kids(AllComposite, Ring(), 3) == [1]
  }

  lemma RingFactsHold()
    ensures RingFacts()
  {
    RingUniverse();
  }

  /** Coming back to A with A, B, C open: the one report. */
  lemma RingReenter()
    ensures RingFacts() && Visit(AllComposite, Ring(), 1, 1, [1, 2, 3], Search({1, 2, 3}, [], []))
      == Search({1, 2, 3}, [], [RingReport])
  {
    RingFactsHold();
  }

  /** The children of C, with A, B, C open: only A, which is re-entered. */
  lemma RingChildrenOfC()
    ensures RingFacts() && VisitAll(AllComposite, Ring(), 1, [1], [1, 2, 3], Search({1, 2, 3}, [], []))
      == Search({1, 2, 3}, [], [RingReport])
  {
    RingReenter();
  }

  /** Visiting C with A, B open: the report, then C finishes. */
  lemma RingVisitC()
    ensures RingFacts() && Visit(AllComposite, Ring(), 1, 3, [1, 2], Search({1, 2}, [], []))
      == Search({1, 2, 3}, [3], [RingReport])
  {
    RingChildrenOfC();
    assert [1, 2] + [3] == [1, 2, 3];
    assert {1, 2} + {3} == {1, 2, 3};
  }

  /** The children of B, with A, B open: C. */
  lemma RingChildrenOfB()
    ensures RingFacts() && VisitAll(AllComposite, Ring(), 1, [3], [1, 2], Search({1, 2}, [], []))
      == Search({1, 2, 3}, [3], [RingReport])
  {
    RingVisitC();
  }

  /** Visiting B with A open. */
  lemma RingVisitB()
    ensures RingFacts() && Visit(AllComposite, Ring(), 1, 2, [1], Search({1}, [], []))
      == Search({1, 2, 3}, [3, 2], [RingReport])
  {
    RingChildrenOfB();
    assert [1] + [2] == [1, 2];
    assert {1} + {2} == {1, 2};
  }

  /** The children of A, with A open: B. */
  lemma RingChildrenOfA()
    ensures RingFacts() && VisitAll(AllComposite, Ring(), 1, [2], [1], Search({1}, [], []))
      == Search({1, 2, 3}, [3, 2], [RingReport])
  {
    RingVisitB();
  }

  /** The cycle A, B, C, A is reported exactly once, with its open path A, B, C. */
  lemma ThreeCycleReported()
    ensures DetectCycles(AllComposite, Ring(), 1) == [RingReport]
  {
    RingChildrenOfA();
    assert [] + [1] == [1];
    assert {} + {1} == {1};
    assert Visit(AllComposite, Ring(), 1, 1, [], Search({}, [], []))
        == Search({1, 2, 3}, [3, 2, 1], [RingReport]);
  }

}

=== FILE: machine.dfy ===
/**
 * The state machine proper: lifecycle (start, stop, reset) and event
 * dispatch over a flat machine.  Every operation is a pure step that returns
 * the new machine, what the call returned or raised, and the ordered effects
 * observed outside the machine (state callbacks and hook notifications,
 * transition actions, error reports, recovery calls).
 */
module StateMachine {
  import opened Wrappers
  import opened StateGraph
  import opened History
  import opened Priority

  /** The externally supplied step of a transition or lifecycle call that may raise. */
  datatype Phase = ExitPhase | ActionPhase | EnterPhase

  datatype Failure =
    | ValidationError(problems: seq<string>)  // the graph's structural problems, all of them
    | ValidatorRejected                       // the external validator raised
    | CallbackRaised(phase: Phase)            // a state callback, hook or action raised
    | NotComposite(state: StateId)            // a submachine was offered a non-composite state

  /** What the world outside the machine observes, in order. */
  datatype Effect =
    | Entered(state: StateId)                          // state's on_enter, then every hook's on_enter
    | Exited(state: StateId)                           // state's on_exit, then every hook's on_exit
    | ActionsRan(transition: Transition, event: Event) // the transition's actions
    | ErrorReported(failure: Failure)                  // every hook's on_error
    | Recovered(failure: Failure)                      // the attached recovery strategy was invoked

  /**
   * A machine.  `hierarchy` is the containment recorded on the state objects
   * this machine registered; `graph` holds the graph's own edges.  `nested`
   * marks a composite machine, whose `subs` map composite states to their
   * submachines; a flat machine ignores `subs`.
   * `recovery` says whether an error-recovery strategy is attached.
   */
  datatype Machine = Machine(
    graph: Graph,
    hierarchy: Hierarchy,
    initial: StateId,
    current: Option<StateId>,
    started: bool,
    context: Context,
    recovery: bool,
    nested: bool,
    subs: map<StateId, Machine>)

  /** The external collaborators: state classes, guards, the graph's validation, the validator. */
  datatype Env = Env(
    kinds: Kinds,
    guard: Guard,
    validate: Graph -> seq<string>,
    validatorAccepts: Machine -> bool)

  /** The result of a call that returns nothing: the new machine, whether it raised, the effects. */
  datatype Step = Step(machine: Machine, outcome: Outcome<Failure>, effects: seq<Effect>)

  /** What `process_event` did: returned true, returned false, or raised. */
  datatype Dispatch = Handled | NotHandled | Raised(failure: Failure)

  datatype EventStep = EventStep(machine: Machine, dispatch: Dispatch, effects: seq<Effect>)

  /** Invariants every reachable machine keeps. */
  ghost predicate Valid(m: Machine)
    decreases m
  {
    && (m.started ==> m.current.Some?)
    && WellKeyed(m.context)
    && m.context.initial == m.initial
    && NoDups(m.context.known)
    && (forall s :: s in m.subs ==> Valid(m.subs[s]))
  }

  /** The parts of a machine that lifecycle calls and event dispatch never touch. */
  ghost predicate SameSetup(a: Machine, b: Machine) {
    a.graph == b.graph && a.hierarchy == b.hierarchy && a.initial == b.initial
    && a.recovery == b.recovery
    && a.nested == b.nested && a.subs == b.subs
  }

  /** A stopped machine positioned at `initial`, with `initial` registered and no history. */
  function NewMachine(initial: StateId, nested: bool): (m: Machine)
    ensures Valid(m)
    ensures !m.started && m.current == Some(initial) && m.initial == initial
    ensures initial in m.graph.states && m.graph.transitions == []
    ensures m.graph.parent == map[] && m.hierarchy == EmptyHierarchy()
    ensures forall c :: Lookup(m.context, c) == None
    ensures !m.recovery && m.nested == nested && m.subs == map[]
  {
    Machine(AddState(EmptyGraph(), initial, None), EmptyHierarchy(), initial, Some(initial), false,
            NewContext(initial), false, nested, map[])
  }

  /** Attaches the (default, no-op) error-recovery strategy. */
  function AttachRecovery(m: Machine): (r: Machine)
    ensures r.recovery
    ensures Valid(m) ==> Valid(r)
    ensures r.graph == m.graph && r.hierarchy == m.hierarchy
    ensures r.current == m.current && r.started == m.started && r.context == m.context
    ensures r.initial == m.initial && r.nested == m.nested && r.subs == m.subs
  {
    m.(recovery := true)
  }

  /**
   * Registers a state, optionally under a parent: the graph gets the edge,
   * the state and its parent record it in their attributes, and the context
   * learns the state.
   */
  function AddMachineState(m: Machine, s: StateId, parent: Option<StateId>): (r: Machine)
    ensures r.graph == AddState(m.graph, s, parent)
    ensures parent.None? ==> r.hierarchy == m.hierarchy
    ensures parent.Some? ==> r.hierarchy == Adopt(m.hierarchy, s, parent.value)
    ensures s in r.context.known
    ensures forall x :: x in r.context.known <==> x in m.context.known || x == s
    ensures r.context.records == m.context.records && r.context.current == m.context.current
    ensures r.recovery == m.recovery && r.nested == m.nested && r.subs == m.subs
    ensures Valid(m) ==> Valid(r)
    ensures r.current == m.current && r.started == m.started && r.initial == m.initial
  {
    m.(graph := AddState(m.graph, s, parent),
       hierarchy := if parent.Some? then Adopt(m.hierarchy, s, parent.value) else m.hierarchy,
       context := Remember(m.context, s))
  }

  /** Registers a transition; its endpoints become known to the context. */
  function AddMachineTransition(m: Machine, t: Transition): (r: Machine)
    ensures r.graph.transitions == m.graph.transitions + [t]
    ensures t.source in r.context.known && t.target in r.context.known
    ensures forall x :: x in r.context.known <==> x in m.context.known || x == t.source || x == t.target
    ensures r.context.records == m.context.records && r.context.current == m.context.current
    ensures r.recovery == m.recovery && r.nested == m.nested && r.subs == m.subs
    ensures r.graph.states == m.graph.states && r.graph.parent == m.graph.parent
    ensures r.hierarchy == m.hierarchy
    ensures Valid(m) ==> Valid(r)
    ensures r.current == m.current && r.started == m.started && r.initial == m.initial
  {
    m.(graph := AddTransition(m.graph, t),
       context := Remember(Remember(m.context, t.source), t.target))
  }

  /** The `parent` attribute of `s` when that parent is a composite state. */
  function ParentComposite(m: Machine, kinds: Kinds, s: StateId): (r: Option<StateId>)
    ensures r.Some? <==> s in m.hierarchy.parent && IsComposite(kinds, m.hierarchy.parent[s])
    ensures r.Some? ==> r.value == m.hierarchy.parent[s]
  {
    var parent := m.hierarchy.parent;
    if s in parent && IsComposite(kinds, parent[s]) then Some(parent[s]) else None
  }

  /** Where start resolution begins: the current state, or the initial state when there is none. */
  function Anchor(m: Machine): StateId {
    if m.current.Some? then m.current.value else m.initial
  }

  /**
   * Where start would enter if no history existed: the initial child of the
   * anchor's composite parent, else the initial state.
   */
  function StaticEntry(m: Machine, kinds: Kinds): StateId {
    match ParentComposite(m, kinds, Anchor(m))
    case Some(p) => if kinds(p).initialChild.Some? then kinds(p).initialChild.value else m.initial
    case None => m.initial
  }

  /**
   * The state `start` enters.  When the anchor lies inside a composite, that
   * composite's recorded leaf wins, then its designated initial child; in
   * every other case the machine's initial state.
   */
  function ResolveStartState(m: Machine, kinds: Kinds): (r: StateId)
    ensures ParentComposite(m, kinds, Anchor(m)).Some? ==>
      var p := ParentComposite(m, kinds, Anchor(m)).value;
      (Lookup(m.context, p).Some? ==> r == Lookup(m.context, p).value)
      && (Lookup(m.context, p).None? && kinds(p).initialChild.Some? ==> r == kinds(p).initialChild.value)
      && (Lookup(m.context, p).None? && kinds(p).initialChild.None? ==> r == m.initial)
    ensures ParentComposite(m, kinds, Anchor(m)).None? ==> r == m.initial
    ensures r != StaticEntry(m, kinds) ==>
      r == Lookup(m.context, ParentComposite(m, kinds, Anchor(m)).value).value
  {
    var anchor := Anchor(m);
    match ParentComposite(m, kinds, anchor)
    case None => m.initial
    case Some(p) =>
      match Lookup(m.context, p)
      case Some(leaf) => leaf
      case None => if kinds(p).initialChild.Some? then kinds(p).initialChild.value else m.initial
  }

  /**
   * `start`: a no-op on a started machine.  Otherwise the resolved entry
   * state becomes current first; then structural problems, the external
   * validator and the entry callback can each still raise, leaving the
   * machine stopped.  Only when all pass is the machine started.
   */
  function Start(m: Machine, env: Env, fault: Option<Phase>): (r: Step)
    ensures m.started ==> r == Step(m, Pass, [])
    ensures !m.started ==> r.machine.current == Some(ResolveStartState(m, env.kinds))
    ensures !m.started && |env.validate(m.graph)| > 0 ==>
      r.outcome == Fail(ValidationError(env.validate(m.graph))) && !r.machine.started && r.effects == []
    ensures !m.started ==> (r.outcome.Pass? <==>
      && |env.validate(m.graph)| == 0
      && env.validatorAccepts(m.(current := Some(ResolveStartState(m, env.kinds))))
      && fault != Some(EnterPhase))
    ensures !m.started && r.outcome.Pass? ==>
      r.machine.started && r.effects == [Entered(ResolveStartState(m, env.kinds))]
    ensures !m.started && r.outcome.Fail? ==> !r.machine.started && r.effects == []
    ensures SameSetup(r.machine, m) && r.machine.context == m.context
    ensures Valid(m) ==> Valid(r.machine)
  {
    if m.started then Step(m, Pass, [])
    else
      var s := ResolveStartState(m, env.kinds);
      var m1 := m.(current := Some(s));
      var problems := env.validate(m1.graph);
      if |problems| > 0 then Step(m1, Fail(ValidationError(problems)), [])
      else if !env.validatorAccepts(m1) then Step(m1, Fail(ValidatorRejected), [])
      else if fault == Some(EnterPhase) then Step(m1, Fail(CallbackRaised(EnterPhase)), [])
      else Step(m1.(started := true), Pass, [Entered(s)])
  }

  /**
   * `stop`: a no-op on a stopped machine.  Otherwise the current leaf is
   * recorded as the history of its immediate composite parent (only), the
   * leaf is exited, and the machine is left stopped with no current state.
   * An exit callback that raises leaves the machine running, history written.
   */
  function Stop(m: Machine, env: Env, fault: Option<Phase>): (r: Step)
    ensures !m.started ==> r == Step(m, Pass, [])
    ensures m.started && m.current.None? ==> r == Step(m.(started := false), Pass, [])
    ensures m.started && m.current.Some? ==>
      var c := m.current.value;
      var p := ParentComposite(m, env.kinds, c);
      && (forall k: StateId :: Lookup(r.machine.context, k) ==
            if p == Some(k) then Some(c) else Lookup(m.context, k))
      && (fault != Some(ExitPhase) ==>
            r.outcome.Pass? && r.machine.current.None? && !r.machine.started
            && r.machine.context.current.None? && r.effects == [Exited(c)])
      && (fault == Some(ExitPhase) ==>
            r.outcome == Fail(CallbackRaised(ExitPhase)) && r.machine.current == m.current
            && r.machine.context.current == m.context.current
            && r.machine.started && r.effects == [])
    ensures SameSetup(r.machine, m)
    ensures r.machine.context.initial == m.context.initial && r.machine.context.known == m.context.known
    ensures Valid(m) ==> Valid(r.machine)
  {
    if !m.started then Step(m, Pass, [])
    else if m.current.None? then Step(m.(started := false), Pass, [])
    else
      var c := m.current.value;
      var ctx := match ParentComposite(m, env.kinds, c)
        case Some(p) => RecordExit(m.context, p, c)
        case None => m.context;
      var m1 := m.(context := ctx);
      if fault == Some(ExitPhase) then Step(m1, Fail(CallbackRaised(ExitPhase)), [])
      else
        var m2 := m1.(current := None, context := ctx.(current := None), started := false);
        Step(m2, Pass, [Exited(c)])
  }

  /**
   * `reset`: stop, then forget all history and return to the initial state.
   * If stopping raises, nothing after it happens.
   */
  function Reset(m: Machine, env: Env, fault: Option<Phase>): (r: Step)
    ensures Stop(m, env, fault).outcome.Fail? ==> r == Stop(m, env, fault)
    ensures Stop(m, env, fault).outcome.Pass? ==>
      && r.outcome.Pass? && !r.machine.started
      && r.machine.current == Some(m.initial)
      && (forall k: StateId :: Lookup(r.machine.context, k) == None)
      && r.machine.context.current == Some(m.context.initial)
      && r.effects == (if m.started && m.current.Some? then [Exited(m.current.value)] else [])
    ensures r.machine.context.known == m.context.known && r.machine.context.initial == m.context.initial
    ensures SameSetup(r.machine, m)
    ensures Valid(m) ==> Valid(r.machine)
  {
    var st := Stop(m, env, fault);
    if st.outcome.Fail? then st
    else
      var m1 := st.machine;
      Step(m1.(context := ResetHistory(m1.context), current := Some(m1.initial)), Pass, st.effects)
  }

  /**
   * The state transitions are matched from: the current state, or, when the
   * current state is composite, its statically designated initial child
   * (history is not consulted).
   */
  function ActiveState(m: Machine, kinds: Kinds): (r: Option<StateId>)
    ensures m.current.None? ==> r.None?
    ensures m.current.Some? && !IsComposite(kinds, m.current.value) ==> r == m.current
    ensures m.current.Some? && IsComposite(kinds, m.current.value) ==>
      r == kinds(m.current.value).initialChild
  {
    match m.current
    case None => None
    case Some(c) => if IsComposite(kinds, c) then kinds(c).initialChild else Some(c)
  }

  /** The transition `process_event` fires for `ev`, if any. */
  function Fired(m: Machine, env: Env, ev: Event): (r: Option<Transition>)
    ensures r.None? <==>
      (!m.started || m.current.None? ||
       forall t :: t in m.graph.transitions ==> !Matches(env.guard, ActiveState(m, env.kinds), ev, t))
    ensures r.Some? ==>
      r.value in m.graph.transitions && Matches(env.guard, ActiveState(m, env.kinds), ev, r.value)
    ensures r.Some? ==>
      forall t :: t in m.graph.transitions && Matches(env.guard, ActiveState(m, env.kinds), ev, t) ==>
        t.priority <= r.value.priority
  {
    if !m.started || m.current.None? then None
    else Select(m.graph.transitions, env.guard, ActiveState(m, env.kinds), ev)
  }

  /** Records `leaf` as the history of every composite among `ancestors`. */
  function RecordAncestors(ctx: Context, ancestors: seq<StateId>, kinds: Kinds, leaf: StateId)
    : (r: Context)
    ensures forall a: StateId ::
      Lookup(r, a) == if a in ancestors && IsComposite(kinds, a) then Some(leaf) else Lookup(ctx, a)
    ensures WellKeyed(ctx) ==> WellKeyed(r)
    ensures r.initial == ctx.initial && r.current == ctx.current && r.known == ctx.known
    decreases |ancestors|
  {
    if |ancestors| == 0 then ctx
    else
      var ctx1 := if IsComposite(kinds, ancestors[0]) then RecordExit(ctx, ancestors[0], leaf) else ctx;
      RecordAncestors(ctx1, ancestors[1..], kinds, leaf)
  }

  /** The notices a raised error produces: the hooks' reports, then the recovery call if attached. */
  function Reported(recovery: bool, f: Failure): seq<Effect> {
    if recovery then [ErrorReported(f), Recovered(f)] else [ErrorReported(f)]
  }

  /** Reports a raised error to the hooks, then recovers from it or lets it propagate. */
  function Abort(m: Machine, phase: Phase, done: seq<Effect>): (r: Step)
    ensures r.machine == m
    ensures r.effects == done + Reported(m.recovery, CallbackRaised(phase))
    ensures r.outcome.Fail? <==> !m.recovery
    ensures r.outcome.Fail? ==> r.outcome.error == CallbackRaised(phase)
  {
    var f := CallbackRaised(phase);
    if m.recovery then Step(m, Pass, done + [ErrorReported(f), Recovered(f)])
    else Step(m, Fail(f), done + [ErrorReported(f)])
  }

  /**
   * Fires `t` from the current leaf: deep history is written for every
   * composite ancestor of the leaf, then the leaf is exited, the actions
   * run, the target becomes current and is entered.  A raising step stops
   * the sequence where it is, without rollback.
   */
  function ExecuteTransition(m: Machine, env: Env, t: Transition, ev: Event, fault: Option<Phase>)
    : (r: Step)
    ensures m.current.None? ==> r == Step(m, Pass, [])
    ensures m.current.Some? ==>
      var c := m.current.value;
      && (forall a: StateId :: Lookup(r.machine.context, a) ==
            if a in Ancestors(m.graph, c) && IsComposite(env.kinds, a) then Some(c)
            else Lookup(m.context, a))
      && (fault.None? ==>
            r.outcome.Pass? && r.machine.current == Some(t.target)
            && r.effects == [Exited(c), ActionsRan(t, ev), Entered(t.target)])
      && (fault == Some(ExitPhase) ==>
            r.machine.current == Some(c)
            && r.effects == Reported(m.recovery, CallbackRaised(ExitPhase)))
      && (fault == Some(ActionPhase) ==>
            r.machine.current == Some(c)
            && r.effects == [Exited(c)] + Reported(m.recovery, CallbackRaised(ActionPhase)))
      && (fault == Some(EnterPhase) ==>
            r.machine.current == Some(t.target)
            && r.effects ==
                 [Exited(c), ActionsRan(t, ev)] + Reported(m.recovery, CallbackRaised(EnterPhase)))
      && (fault.Some? ==> (r.outcome.Fail? <==> !m.recovery))
      && (r.outcome.Fail? ==> r.outcome.error == CallbackRaised(fault.value))
    ensures r.machine.context.(records := m.context.records) == m.context
    ensures SameSetup(r.machine, m) && r.machine.started == m.started
    ensures Valid(m) ==> Valid(r.machine)
  {
    if m.current.None? then Step(m, Pass, [])
    else
      var c := m.current.value;
      var m1 := m.(context := RecordAncestors(m.context, Ancestors(m.graph, c), env.kinds, c));
      match fault
      case Some(ExitPhase) => Abort(m1, ExitPhase, [])
      case Some(ActionPhase) => Abort(m1, ActionPhase, [Exited(c)])
      case Some(EnterPhase) =>
        Abort(m1.(current := Some(t.target)), EnterPhase, [Exited(c), ActionsRan(t, ev)])
      case None =>
        Step(m1.(current := Some(t.target)), Pass, [Exited(c), ActionsRan(t, ev), Entered(t.target)])
  }

  /**
   * `process_event` of a flat machine: false, with nothing changed, when the
   * machine is stopped, has no current state or has no valid transition;
   * otherwise the selected transition is executed and the call returns true,
   * unless the transition raised and no recovery strategy is attached.
   */
  function ProcessEvent(m: Machine, env: Env, ev: Event, fault: Option<Phase>): (r: EventStep)
    ensures Fired(m, env, ev).None? ==> r == EventStep(m, NotHandled, [])
    ensures Fired(m, env, ev).Some? ==> r.dispatch != NotHandled
    ensures Fired(m, env, ev).Some? && fault.None? ==>
      r.dispatch == Handled && r.machine.current == Some(Fired(m, env, ev).value.target)
      && r.effects == [Exited(m.current.value), ActionsRan(Fired(m, env, ev).value, ev),
                       Entered(Fired(m, env, ev).value.target)]
    ensures r.dispatch.Raised? <==> Fired(m, env, ev).Some? && fault.Some? && !m.recovery
    ensures r.dispatch.Raised? ==> r.dispatch.failure == CallbackRaised(fault.value)
    ensures r.machine.context.(records := m.context.records) == m.context
    ensures SameSetup(r.machine, m) && r.machine.started == m.started
    ensures Valid(m) ==> Valid(r.machine)
  {
    match Fired(m, env, ev)
    case None => EventStep(m, NotHandled, [])
    case Some(t) =>
      var x := ExecuteTransition(m, env, t, ev, fault);
      EventStep(x.machine, if x.outcome.Fail? then Raised(x.outcome.error) else Handled, x.effects)
  }
}

=== FILE: priority.dfy ===
/**
 * Conflict resolution among valid transitions: the one with the greatest
 * priority wins, and among equal priorities the earliest one wins (Python's
 * `max` keeps the first maximal element it meets).
 */
module Priority {
  import opened Wrappers
  import opened StateGraph

  /** `i` is the first position holding a maximal priority in `ts`. */
  ghost predicate IsFirstMax(ts: seq<Transition>, i: int) {
    && 0 <= i < |ts|
    && (forall j :: 0 <= j < |ts| ==> ts[j].priority <= ts[i].priority)
    && (forall j :: 0 <= j < i ==> ts[j].priority < ts[i].priority)
  }

  /** Scans left to right, replacing the best so far only on a strictly greater priority. */
  function FirstMax(ts: seq<Transition>): (i: nat)
    requires |ts| > 0
    ensures IsFirstMax(ts, i)
  {
    if |ts| == 1 then 0
    else
      var best := FirstMax(ts[..|ts| - 1]);
      if ts[|ts| - 1].priority > ts[best].priority then |ts| - 1 else best
  }

  /** The tie-break is deterministic: at most one position is the first maximal one. */
  lemma FirstMaxUnique(ts: seq<Transition>, i: int, j: int)
    requires IsFirstMax(ts, i) && IsFirstMax(ts, j)
    ensures i == j
  {
    // both are maximal, so they carry the same priority; neither can then precede the other
    assert ts[i].priority == ts[j].priority;
  }

  /** The transition that fires out of `active` on `ev`, if any. */
  function Select(ts: seq<Transition>, guard: Guard, active: Option<StateId>, ev: Event)
    : (r: Option<Transition>)
    ensures r.None? <==> forall t :: t in ts ==> !Matches(guard, active, ev, t)
    ensures r.Some? ==> r.value in ts && Matches(guard, active, ev, r.value)
    ensures r.Some? ==>
      forall t :: t in ts && Matches(guard, active, ev, t) ==> t.priority <= r.value.priority
  {
    var cs := Candidates(ts, guard, active, ev);
    if |cs| == 0 then None
    else
      assert cs[0] in cs;
      Some(cs[FirstMax(cs)])
  }

  /**
   * Position `i` of the registration order holds the first valid transition
   * whose priority is maximal among the valid ones.
   */
  ghost predicate IsFirstMaxMatch(ts: seq<Transition>, guard: Guard, active: Option<StateId>, ev: Event,
                                  i: int) {
    && 0 <= i < |ts|
    && Matches(guard, active, ev, ts[i])
    && (forall j :: 0 <= j < |ts| && Matches(guard, active, ev, ts[j]) ==>
          ts[j].priority <= ts[i].priority)
    && (forall j :: 0 <= j < i && Matches(guard, active, ev, ts[j]) ==> ts[j].priority < ts[i].priority)
  }

  /** Growing the registration order by one transition that does not match keeps the winner. */
  lemma ExtendUnmatched(ts: seq<Transition>, guard: Guard, active: Option<StateId>, ev: Event, k: int)
    requires |ts| > 0 && !Matches(guard, active, ev, ts[|ts| - 1])
    requires IsFirstMaxMatch(ts[..|ts| - 1], guard, active, ev, k)
    ensures IsFirstMaxMatch(ts, guard, active, ev, k)
  {
  }

  /** A matching newcomer of priority no greater than the winner leaves the winner in place. */
  lemma ExtendNotGreater(ts: seq<Transition>, guard: Guard, active: Option<StateId>, ev: Event, k: int)
    requires |ts| > 0 && IsFirstMaxMatch(ts[..|ts| - 1], guard, active, ev, k)
    requires ts[|ts| - 1].priority <= ts[k].priority
    ensures IsFirstMaxMatch(ts, guard, active, ev, k)
  {
  }

  /** A matching newcomer of strictly greater priority than every earlier match becomes the winner. */
  lemma ExtendGreater(ts: seq<Transition>, guard: Guard, active: Option<StateId>, ev: Event, p: int)
    requires |ts| > 0 && Matches(guard, active, ev, ts[|ts| - 1]) && ts[|ts| - 1].priority > p
    requires forall j :: 0 <= j < |ts| - 1 && Matches(guard, active, ev, ts[j]) ==> ts[j].priority <= p
    ensures IsFirstMaxMatch(ts, guard, active, ev, |ts| - 1)
  {
  }

  /** The registration-order winner is unique too. */
  lemma FirstMaxMatchUnique(ts: seq<Transition>, guard: Guard, active: Option<StateId>, ev: Event,
                            i: int, j: int)
    requires IsFirstMaxMatch(ts, guard, active, ev, i) && IsFirstMaxMatch(ts, guard, active, ev, j)
    ensures i == j
  {
  }

  /** Filtering one more transition extends the filtered prefix by the newcomer when it is valid. */
  lemma CandidatesSnoc(ts: seq<Transition>, guard: Guard, active: Option<StateId>, ev: Event)
    requires |ts| > 0
    ensures Candidates(ts, guard, active, ev) ==
      Candidates(ts[..|ts| - 1], guard, active, ev)
      + (if Matches(guard, active, ev, ts[|ts| - 1]) then [ts[|ts| - 1]] else [])
  {
  }

  /** The position, in registration order, of the transition `Select` picks. */
  lemma {:induction false} FirstRegisteredMaxIndex(ts: seq<Transition>, guard: Guard,
                                                   active: Option<StateId>, ev: Event)
    returns (i: int)
    requires Select(ts, guard, active, ev).Some?
    ensures IsFirstMaxMatch(ts, guard, active, ev, i) && ts[i] == Select(ts, guard, active, ev).value
    decreases |ts|
  {
    var n := |ts| - 1;
    var front := ts[..n];
    var last := ts[n];
    CandidatesSnoc(ts, guard, active, ev);
    var cs := Candidates(ts, guard, active, ev);
    var csFront := Candidates(front, guard, active, ev);
    if |csFront| == 0 {
      assert cs == [last];
      forall j | 0 <= j < n ensures !Matches(guard, active, ev, ts[j]) {
        assert ts[j] == front[j] && front[j] in front;
      }
      ExtendGreater(ts, guard, active, ev, last.priority - 1);
      i := n;
    } else {
      var k := FirstRegisteredMaxIndex(front, guard, active, ev);
      var best := csFront[FirstMax(csFront)];
      assert ts[k] == front[k] == best;
      if !Matches(guard, active, ev, last) {
        assert cs == csFront;
        ExtendUnmatched(ts, guard, active, ev, k);
        i := k;
      } else if last.priority > best.priority {
        assert cs == csFront + [last];
        forall j | 0 <= j < n && Matches(guard, active, ev, ts[j])
          ensures ts[j].priority <= best.priority
        {
          assert ts[j] == front[j];
        }
        ExtendGreater(ts, guard, active, ev, best.priority);
        assert cs[FirstMax(cs)] == last;
        i := n;
      } else {
        assert cs == csFront + [last];
        ExtendNotGreater(ts, guard, active, ev, k);
        assert cs[FirstMax(cs)] == best;
        i := k;
      }
    }
  }

  /**
   * Filtering and then taking the first maximum picks exactly the earliest
   * registered valid transition of greatest priority: ties are broken by
   * registration order.
   */
  lemma SelectIsFirstRegisteredMax(ts: seq<Transition>, guard: Guard, active: Option<StateId>, ev: Event)
    ensures Select(ts, guard, active, ev).Some? ==>
      exists i :: IsFirstMaxMatch(ts, guard, active, ev, i) && ts[i] == Select(ts, guard, active, ev).value
  {
    if Select(ts, guard, active, ev).Some? {
      var i := FirstRegisteredMaxIndex(ts, guard, active, ev);
    }
  }
}

=== FILE: wrappers.dfy ===
/** Small failure-carrying datatypes shared by the whole model. */
module Wrappers {

  /** A value that may be absent (Python's `Optional`, where `None` means "no value"). */
  datatype Option<+T> = None | Some(value: T)

  /** The result of an operation that returns nothing but may raise `error`. */
  datatype Outcome<+E> = Pass | Fail(error: E)
}
